=== FILE: README.md ===
# netatmo-exporter collector, modelled in Dafny

This project models the core of the Netatmo Prometheus exporter: the collector
in `internal/collector/collector.go`. The collector keeps one cached snapshot of
the Netatmo device tree. On every Prometheus scrape it does three things:

- it decides whether to start a background refresh;
- it reports five self-health gauges (up, refresh interval, last refresh time,
  last refresh duration, cache time);
- it walks the cached devices and their linked modules and reports each fresh
  reading, one gauge per sensor field present.

The model is sequential and functional:

- The collector's mutable fields form one immutable `State`.
- `RefreshData` is a function from state to state.
- `Collect` maps a state, the clock reading and the configuration to the
  sequence of metric records the scrape emits.
- `ScrapeAt` combines the two: the scrape emits from the state it finds, and
  the refresh it triggers is seen from the next scrape on.
- The clock reading, the read function's result and the measured refresh
  duration are parameters.

Files:

- `wrappers.dfy`: `Option`, used for Go's nil pointers and nil errors.
- `gotime.dfy`: the part of Go's `time` package the collector uses.
  - Go stores a `Time` as signed 64-bit seconds from 0001-01-01 UTC plus a
    nanosecond. The model folds both into one count of nanoseconds whose
    seconds stay within 64 bits, so 0 is Go's zero Time.
  - A `Duration` is a signed 64-bit count of nanoseconds.
  - `Sub` saturates at the ends of that range, like `Time.Sub`.
  - `Unix` and `FromUnix` convert to and from Unix seconds. Both shift the
    seconds between the two epochs with Go's wrapping `int64` addition
    (`AddInt64`).
- `netatmo.dfy`: the device tree of the Netatmo API client. It holds only the
  fields the collector reads, and every optional field is an `Option`. The
  measurement time `lastMeasure` is Go's `int64` of Unix seconds.
- `metrics.dfy`: the metric descriptors (`Desc`), their exported names, and the
  metric record `(descriptor, value, labels)`.
- `collector.dfy`: the collector itself. This covers the trigger, the refresh,
  the up-flag, `convertTime`, the self-health block, `collectData`, the
  device/module walk, `Collect`, and one scrape step.
- `refresh_properties.dfy`: properties of the trigger, the refresh and the
  up-flag. It also proves the cache invariant over any run of scrapes, and that
  the cache always holds the last successful read.
- `emission_properties.dfy`: properties of the metrics of one leaf. These cover
  the staleness boundary, absent and present fields, and the full shape of a
  reported leaf.
- `walk_properties.dfy`: properties of the walk over the cached device tree. A
  reference definition lists the tree's leaves in visiting order: each device,
  then its linked modules. The walk is proved equal to reporting those leaves
  one after another, and a scrape reports every metric of every leaf.
- `scenarios.dfy`: worked scrape sequences: a fresh reading, a stale reading,
  and a first read that fails.

Notes on the code's behaviour:

- The `station` label is the device's `StationName` as delivered. It has no
  `"id-"` fallback; only the `module` label falls back to `"id-" + ID`.
- A reported leaf ends with a `netatmo_aircare_last_measure_utc` gauge.
- The optional fields are reported in a fixed order: temperature, humidity,
  CO2, noise, pressure, wind strength, wind direction, rain, battery, Wi-Fi,
  RF, health index, and absolute pressure last.
- `up` is 1 exactly when a refresh has been attempted and the last attempt
  returned no error. A read that returns no error and no collection counts as a
  success. It sets `up` to 1 and empties the cache, so the scrape then reports
  only the five self-health gauges.
- "The cache is never newer than the last attempt" holds over every run of
  scrapes with a non-negative refresh interval, even when the clock runs
  backwards: the trigger then fires only at a clock reading no earlier than the
  last attempt. Only a negative interval lets a backwards clock break it.
- A `LastMeasure` within 62,135,596,800 s of the largest `int64` overflows the
  epoch shift in `time.Unix`. The reading then looks older than any Duration,
  so its leaf is skipped as stale under every threshold below the largest one.

## Model

| member | source | states |
|---|---|---|
| `Metrics.MetricName` | internal/collector/collector.go:12-128 | Every exported name starts with `netatmo_`. A name starts with `netatmo_aircare_` exactly when its descriptor declares the `module` and `station` labels. |
| `Collector.ShouldRefresh` | internal/collector/collector.go:185-188 | A scrape starts a refresh exactly when the interval has elapsed since the last attempt, or when the interval is the smallest Duration: Go's saturating `Sub` then fires it even for a clock that ran backwards. |
| `Collector.RefreshData` | internal/collector/collector.go:216-235 | The attempt time becomes `now` and the error becomes the read's error, whatever the outcome. On error the cached collection and cache time are untouched. On success both are replaced together: the new collection, stamped `now`. |
| `RefreshProperties.TriggerIffElapsed` | internal/collector/collector.go:185-188 | A scrape starts a refresh exactly when `now - lastRefresh >= RefreshInterval`. Go's saturating subtraction changes nothing unless the interval is the smallest Duration. |
| `RefreshProperties.FirstScrapeRefreshes` | internal/collector/collector.go:185-188 | With the zero last-attempt time, any scrape from 1970 on starts a refresh, whatever the interval. |
| `RefreshProperties.RefreshRestartsTrigger` | internal/collector/collector.go:216-218 | After a refresh at `now`, successful or not, the next refresh fires exactly once the interval has elapsed since `now`, or on every scrape when the interval is the smallest Duration. A failure therefore does not cause a retry on every scrape. |
| `Collector.UpValue` | internal/collector/collector.go:190-194 | `up` is 0 or 1. It is 1 exactly when the last attempt time is not zero and the last error is nil. |
| `RefreshProperties.UpAfterRefresh` | internal/collector/collector.go:216-228 | After a refresh, `up` reflects that refresh alone: 1 on success, 0 on failure, whatever came before. |
| `RefreshProperties.SuccessForgetsHistory` | internal/collector/collector.go:224-235 | A successful refresh overwrites every field, so its result does not depend on the state it found. |
| `RefreshProperties.FailureKeepsCache` | internal/collector/collector.go:224-229 | A failed refresh changes only the attempt time, the error and the duration. |
| `RefreshProperties.CacheIsLastSuccess` | internal/collector/collector.go:224-235 | After any sequence of refreshes, the cache holds the collection and the time of the last successful read. If every read failed, it holds what it held before. The attempt time and error are always those of the last refresh. |
| `RefreshProperties.InitialSatisfiesInvariant` | internal/collector/collector.go:149-157 | The freshly created collector satisfies the cache invariant. |
| `RefreshProperties.RefreshPreservesInvariant` | internal/collector/collector.go:218-234 | If the clock does not run backwards and does not read the zero Time, a refresh keeps the invariant: the cache time is not after the last attempt time, and nothing is cached before the first attempt. |
| `RefreshProperties.RunBoundedByClock` | internal/collector/collector.go:185-218 | Over a run of scrapes with an advancing clock, the last attempt time never passes the latest clock reading. |
| `RefreshProperties.RunLastRefresh` | internal/collector/collector.go:185-218 | The last attempt time is always the initial one or the clock reading of one of the scrapes. |
| `RefreshProperties.RunPreservesInvariant` | internal/collector/collector.go:184-235 | Over any run of scrapes with a non-negative interval and a clock that never reads the zero Time, the cache invariant holds after every scrape, even when the clock runs backwards. |
| `RefreshProperties.NegativeIntervalBreaksInvariant` | internal/collector/collector.go:184-235 | An example: with an interval of -5 ns, a scrape whose clock reads 3 ns before the last attempt still triggers, and a failed read then leaves the attempt time before the cache time. |
| `Collector.ConvertTime` | internal/collector/collector.go:321-327 | The zero Time is reported as 0. Any other time is reported as its Unix seconds. |
| `RefreshProperties.ConvertTimeRoundTrip` | internal/collector/collector.go:321-327 | For every second except the one that falls on the zero Time, `convertTime` inverts `time.Unix(sec, 0)`. |
| `GoTime.UnixRoundTrip` | internal/collector/collector.go:250-257 | The `updated` gauge reports exactly the measured Unix second. |
| `Collector.SelfHealth` | internal/collector/collector.go:190-202 | Exactly five unlabelled gauges, in the order up, refresh interval, last refresh time, last refresh duration, cache time. They carry the up-flag, the interval in seconds, the converted attempt time, the duration in seconds and the converted cache time. |
| `RefreshProperties.NeverRefreshedReportsZeros` | internal/collector/collector.go:190-203 | Before any refresh, a scrape emits only the five self-health gauges: up 0, last refresh time 0, duration 0 and cache time 0. |
| `Collector.Collect` | internal/collector/collector.go:184-213 | The five self-health gauges come first. With no cached collection nothing else is emitted; with one, the rest is exactly the walk over the cached devices. Every later metric is a sensor metric that belongs to one of the cached devices. Every metric's labels match its descriptor, so `NewConstMetric`'s label-count check never drops one. |
| `Collector.NextState` | internal/collector/collector.go:184-235 | A scrape that triggers stamps the attempt time, the read's error and the measured duration. On success it also caches the read's collection stamped `now`; on failure it keeps the cache pair. A scrape that does not trigger leaves the state unchanged. |
| `Collector.ScrapeAt` | internal/collector/collector.go:184-235 | A scrape reports the five self-health gauges of the state it found, not of the refresh it starts, and with a cache it reports the walk over that cache. When it triggers, the next state carries `now`, the read's error and the measured duration; on success it also caches the read's collection stamped `now`, and on failure it keeps the cache. When it does not trigger, the state is unchanged. |
| `RefreshProperties.ScrapeServesFoundState` | internal/collector/collector.go:185-188 | The refresh runs in the background, so what a scrape emits does not depend on the read result or on how long the refresh takes. |
| `RefreshProperties.FirstScrapeReportsDown` | internal/collector/collector.go:184-194 | The first scrape after start-up reports up 0 and only the self-health block. It stamps the attempt time `now`, and the next scrape reports up 1 exactly when that read succeeded. |
| `Collector.ModuleLabel` | internal/collector/collector.go:238-241 | The module label is never empty. It is the module name when that is non-empty, and `"id-" + ID` otherwise. |
| `Collector.PresentKeys` | internal/collector/collector.go:259-306 | The descriptors kept are exactly those whose field the device holds. |
| `Collector.PresentKeysCount` | internal/collector/collector.go:259-306 | Over distinct descriptors, the number of present keys is the number of fields the device holds. |
| `Collector.FieldMetrics` | internal/collector/collector.go:259-306 | One metric per field held, in the fixed field order. Each carries that field's own value and the leaf's labels. |
| `Collector.FreshLeafMetrics` | internal/collector/collector.go:257-309 | A fresh leaf reports one metric per present key plus two. `updated` comes first and `last_measure_utc` last, both carrying the measured second. The present fields lie between them, in order and with their values. |
| `Collector.LeafMetrics` | internal/collector/collector.go:237-310 | A leaf reports nothing exactly when it has no last measurement or its reading is stale. Otherwise it reports the fresh-leaf metrics, all labelled with its module label and the station name it was given. |
| `Collector.IsStale` | internal/collector/collector.go:250-255 | A reading is stale exactly when its age is more than the threshold and the threshold is below the largest Duration; at the largest Duration Go's saturating `Sub` never exceeds it. The measurement time is Go's wrapped `time.Unix` of the `int64` second. |
| `EmissionProperties.WrappedMeasureIsStale` | internal/collector/collector.go:250-255 | A `LastMeasure` within 62,135,596,800 s of the largest `int64` wraps in `time.Unix` to a time before 0001-01-01. Against any clock from 1970 on it is stale under every threshold below the largest Duration, and the leaf reports nothing. |
| `Collector.FieldOrderDistinct` | internal/collector/collector.go:259-306 | The thirteen optional fields are reported under thirteen distinct descriptors. |
| `EmissionProperties.LeafReportedIffFresh` | internal/collector/collector.go:245-255 | A leaf with a measurement is reported exactly when its age is at most the stale threshold. Saturation changes nothing below the largest Duration. |
| `EmissionProperties.AgeAtThresholdReported` | internal/collector/collector.go:250-255 | A reading exactly as old as the threshold is still reported. |
| `EmissionProperties.AbsentFieldNeverReported` | internal/collector/collector.go:259-306 | A field the device does not hold never produces a metric, not even a zero. |
| `EmissionProperties.PresentFieldReported` | internal/collector/collector.go:259-306 | Every field a fresh leaf holds is reported with its own value and the leaf's labels. |
| `EmissionProperties.BareLeafReportsTwo` | internal/collector/collector.go:257-309 | A fresh leaf that holds no optional field reports only `updated` and `last_measure_utc`. |
| `EmissionProperties.LeafCount` | internal/collector/collector.go:257-309 | A reported leaf emits exactly two metrics more than the number of optional fields the device holds. |
| `EmissionProperties.FreshLeafShape` | internal/collector/collector.go:257-309 | A reported leaf is, in full: `updated`, one sample per present field in the fixed order, then `last_measure_utc`. |
| `EmissionProperties.PresentKeysAppend` | internal/collector/collector.go:259-306 | Each field is decided independently. The present keys of a concatenation are those of its parts, in order. |
| `EmissionProperties.AbsentKeysVanish` | internal/collector/collector.go:259-306 | A list of descriptors whose fields are all absent contributes no metric. |
| `Collector.ModulesMetrics` | internal/collector/collector.go:208-210 | Every metric of every linked module is reported. Each reported metric carries that station's name and the module label of one of those modules. |
| `Collector.DeviceMetrics` | internal/collector/collector.go:204-211 | Every metric of the device's own leaf and of each of its linked modules is reported, all under the device's station name. Each reported metric belongs to the device or one of its linked modules. |
| `Collector.DevicesMetrics` | internal/collector/collector.go:203-212 | Every metric of every device walked is reported, and every reported metric belongs to one of those devices. |
| `WalkProperties.ModuleLeaves` | internal/collector/collector.go:208-210 | The linked modules become leaves in their own order, each under the station's name, and no other leaf. |
| `WalkProperties.DeviceLeaves` | internal/collector/collector.go:204-211 | A device's leaves are exactly the device and its linked modules, all under the device's station name. |
| `WalkProperties.Leaves` | internal/collector/collector.go:203-211 | The leaves of a collection are exactly the leaves of its devices. |
| `WalkProperties.LeavesMetrics` | internal/collector/collector.go:203-211 | Reporting a list of leaves yields exactly the metrics of those leaves. |
| `WalkProperties.WalkIsFlatten` | internal/collector/collector.go:203-211 | The device walk equals the reference definition: the metrics of each device, then of each of its linked modules, device after device. |
| `WalkProperties.CollectIsFlatten` | internal/collector/collector.go:184-211 | With a cache, a scrape is the self-health block followed by the metrics of every leaf of the cached collection in visiting order. |
| `WalkProperties.CollectReportsExactlyTheLeaves` | internal/collector/collector.go:203-211 | A metric appears after the self-health block exactly when it is a metric of one of the cached leaves. |
| `WalkProperties.CollectComplete` | internal/collector/collector.go:203-211 | Nothing is dropped: every metric of every cached device, and of each of its linked modules under the device's station name, appears in the scrape. |
| `WalkProperties.WalkDistributes` | internal/collector/collector.go:204-211 | The walk is sequential. The metrics of two device lists, concatenated, are those of the first list followed by those of the second. |
| `WalkProperties.ModulesDistribute` | internal/collector/collector.go:208-210 | The same holds for the linked modules of one station. |
| `WalkProperties.DeviceThenModules` | internal/collector/collector.go:204-211 | For any number of linked modules and any module `j`: the device's own leaf comes first, then the modules before `j`, then module `j`, then the modules after it, all under the device's station name. |
| `Scenarios.FreshReadingReported` | internal/collector/collector.go:184-310 | A first scrape caches a station with a temperature and a humidity measured 10 s earlier, under a 300 s threshold. The second scrape reports up 1, then `updated`, temperature, humidity and `last_measure_utc`, and no other field. |
| `Scenarios.StaleReadingSuppressed` | internal/collector/collector.go:184-255 | The same station measured 400 s earlier reports up 1 and no sensor metric. |
| `Scenarios.FirstReadFails` | internal/collector/collector.go:184-235 | When the first read fails, the next scrape reports up 0, a cache time of 0 and no sensor metric. |

## Left out

- Concurrency. Go runs the refresh as a goroutine and guards the cache with a
  `sync.RWMutex`. Here a refresh is a sequential step whose effect is seen from
  the next scrape. Overlapping refreshes and the unsynchronised scalar fields
  are not modelled.
- The clock. `collectData` reads the clock again for every leaf. The model uses
  the scrape's single reading, so it assumes the clock does not advance within
  one scrape. Go's monotonic clock reading is also ignored; times are wall
  times.
- `lastRefreshDuration`. It is measured from the real clock, so it is an input
  of `RefreshData`.
- Float64. Values are exact reals. The rounding of `float64(...)` and of
  `Duration.Seconds()` is not modelled.
- Dropped metrics. `sendMetric` drops a metric when `prometheus.NewConstMetric`
  fails. `Collect` proves that every emitted metric's label count matches its
  descriptor. The remaining cause, a label value that is not valid UTF-8, cannot
  arise in a `seq<char>` string.
- Nil devices. A nil device pointer in the collection makes Go panic; the model
  has no nil devices.
- Logging, the static `Describe` list, and all of `main.go`. `main.go` covers
  flags and configuration, token-file loading and saving, signal handling and
  the HTTP server.
- RefreshProperties.TriggerIffElapsed: states the elapsed-time rule only for
  intervals above the smallest Duration. At that one value, Go's saturation
  fires the trigger even when the clock runs backwards by more than a Duration.
- EmissionProperties.LeafReportedIffFresh: states the age rule only for
  thresholds below the largest Duration. At that one value, a reading older
  than a Duration saturates and is still reported.
- RefreshProperties.RunPreservesInvariant: assumes the clock never reads the
  zero Time (0001-01-01). A successful refresh stamped with it would cache a
  collection while the state still looks never refreshed.

=== FILE: collector.dfy ===
/** The collector: the refresh trigger, the refresh executor, the cache it fills,
    and the emitter that turns the cache into metrics on every scrape.

    The collector's mutable fields become one immutable `State`; a refresh is a
    function from the old state to the new one and a scrape is a function from
    the state to the metrics it emits. The clock reading, the read function's
    result and the measured refresh duration are parameters. */
module Collector {
  import opened Wrappers
  import opened GoTime
  import opened Netatmo
  import opened Metrics

  /** The configured intervals. */
  datatype Config = Config(refreshInterval: Duration, staleThreshold: Duration)

  /** The error the read function returned; its text only reaches the log. */
  datatype ReadError = ReadError(message: string)

  /** What one call of the read function returned: Go's `(*DeviceCollection, error)` pair. */
  datatype ReadResult = ReadResult(devices: Option<DeviceCollection>, err: Option<ReadError>)

  /** The collector's mutable fields. */
  datatype State = State(
    lastRefresh: Time,
    lastRefreshError: Option<ReadError>,
    lastRefreshDuration: Duration,
    cacheTimestamp: Time,
    cachedData: Option<DeviceCollection>)

  /** The state `New` creates: every field at its zero value. */
  const Initial: State := State(0, None, 0, 0, None)

  // ---------------------------------------------------------------------------
  // Refresh trigger and refresh executor
  // ---------------------------------------------------------------------------

  /** A scrape at `now` starts a refresh. */
  predicate ShouldRefresh(s: State, cfg: Config, now: Time): (r: bool)
    ensures r <==> cfg.refreshInterval == MinDuration || now - s.lastRefresh >= cfg.refreshInterval
  {
    Sub(now, s.lastRefresh) >= cfg.refreshInterval
  }

  /** `RefreshData(now)` with the read function returning `read` and the
      refresh measured to have taken `took`. */
  function RefreshData(s: State, now: Time, read: ReadResult, took: Duration): (r: State)
    ensures r.lastRefresh == now
    ensures r.lastRefreshError == read.err
    ensures r.lastRefreshDuration == took
    ensures read.err.Some? ==> r.cacheTimestamp == s.cacheTimestamp && r.cachedData == s.cachedData
    ensures read.err.None? ==> r.cacheTimestamp == now && r.cachedData == read.devices
  {
    var attempted := s.(lastRefresh := now, lastRefreshError := read.err, lastRefreshDuration := took);
    if read.err.Some? then attempted
    else attempted.(cacheTimestamp := now, cachedData := read.devices)
  }

  // ---------------------------------------------------------------------------
  // Self-health metrics
  // ---------------------------------------------------------------------------

  /** The value of `netatmo_up`. */
  function UpValue(s: State): (r: real)
    ensures r == 0.0 || r == 1.0
    ensures r == 1.0 <==> !IsZero(s.lastRefresh) && s.lastRefreshError.None?
  {
    if IsZero(s.lastRefresh) || s.lastRefreshError.Some? then 0.0 else 1.0
  }

  /** `convertTime`: Unix seconds, with the zero Time reported as 0. */
  function ConvertTime(t: Time): (r: int)
    ensures IsZero(t) ==> r == 0
    ensures !IsZero(t) ==> r == Unix(t)
  {
    if IsZero(t) then 0 else Unix(t)
  }

  /** The five self-health metrics, in the order a scrape emits them. */
  function SelfHealth(s: State, cfg: Config): (r: seq<Metric>)
    ensures DescSeq(r) == [Up, RefreshInterval, RefreshTimestamp, RefreshDuration, CacheTimestamp]
    ensures forall m :: m in r ==> m.labels == NoLabels && !m.desc.IsSensor()
    ensures r[0].value == UpValue(s)
    ensures r[1].value == Seconds(cfg.refreshInterval)
    ensures r[2].value == ConvertTime(s.lastRefresh) as real
    ensures r[3].value == Seconds(s.lastRefreshDuration)
    ensures r[4].value == ConvertTime(s.cacheTimestamp) as real
  {
    [ Metric(Up, UpValue(s), NoLabels),
      Metric(RefreshInterval, Seconds(cfg.refreshInterval), NoLabels),
      Metric(RefreshTimestamp, ConvertTime(s.lastRefresh) as real, NoLabels),
      Metric(RefreshDuration, Seconds(s.lastRefreshDuration), NoLabels),
      Metric(CacheTimestamp, ConvertTime(s.cacheTimestamp) as real, NoLabels) ]
  }

  // ---------------------------------------------------------------------------
  // Per-leaf metrics (`collectData`)
  // ---------------------------------------------------------------------------

  /** The `module` label of a device: its name, or "id-" and its identifier when unnamed. */
  function ModuleLabel(d: Device): (r: string)
    ensures r != []
    ensures d.moduleName != [] ==> r == d.moduleName
    ensures d.moduleName == [] ==> r == "id-" + d.id
  {
    if d.moduleName == [] then "id-" + d.id else d.moduleName
  }

  /** A reading taken at Unix second `lastMeasure` is too old to report at `now`. */
  predicate IsStale(now: Time, lastMeasure: Int64, threshold: Duration): (r: bool)
    ensures r <==> threshold < MaxDuration && now - FromUnix(lastMeasure) > threshold
  {
    Sub(now, FromUnix(lastMeasure)) > threshold
  }

  /** The optional sensor fields, in the order `collectData` reports them. */
  const FieldOrder: seq<Desc> :=
    [Temperature, Humidity, CO2, Noise, Pressure, WindStrength, WindDirection, Rain,
     Battery, Wifi, RF, HealthIndex, AbsolutePressure]

  /** The field of `d` that descriptor `k` reports; `None` for descriptors that
      report no optional field. */
  function Reading(d: Device, k: Desc): Option<real> {
    match k
    case Temperature => d.dashboardData.temperature
    case Humidity => d.dashboardData.humidity
    case CO2 => d.dashboardData.co2
    case Noise => d.dashboardData.noise
    case Pressure => d.dashboardData.pressure
    case WindStrength => d.dashboardData.windStrength
    case WindDirection => d.dashboardData.windAngle
    case Rain => d.dashboardData.rain
    case Battery => d.batteryPercent
    case Wifi => d.wifiStatus
    case RF => d.rfStatus
    case HealthIndex => d.dashboardData.healthIdx
    case AbsolutePressure => d.dashboardData.absolutePressure
    case _ => None
  }

  /** The descriptors of `ks` whose field `d` holds, in order. */
  function PresentKeys(d: Device, ks: seq<Desc>): (r: seq<Desc>)
    ensures forall k :: k in r <==> k in ks && Reading(d, k).Some?
    ensures |r| <= |ks|
  {
    if ks == [] then []
    else (if Reading(d, ks[0]).Some? then [ks[0]] else []) + PresentKeys(d, ks[1..])
  }

  /** One metric per field of `d` named in `ks` that `d` holds, in the order of `ks`. */
  function FieldMetrics(d: Device, ks: seq<Desc>, labels: Labels): (r: seq<Metric>)
    ensures DescSeq(r) == PresentKeys(d, ks)
    ensures forall m :: m in r ==> m.desc in ks && Reading(d, m.desc) == Some(m.value) && m.labels == labels
  {
    if ks == [] then []
    else
      var head := match Reading(d, ks[0])
        case Some(v) => [Metric(ks[0], v, labels)]
        case None => [];
      var tail := FieldMetrics(d, ks[1..], labels);
      assert DescSeq(head + tail) == DescSeq(head) + DescSeq(tail);
      head + tail
  }

  /** The metrics of a leaf whose reading at Unix second `lm` is fresh enough to report. */
  function FreshLeafMetrics(d: Device, lm: Int64, labels: Labels): (r: seq<Metric>)
    ensures |r| == 2 + |PresentKeys(d, FieldOrder)|
    ensures r[0] == Metric(Updated, lm as real, labels)
    ensures r[|r| - 1] == Metric(LastMeasureUtc, lm as real, labels)
    ensures DescSeq(r[1..|r| - 1]) == PresentKeys(d, FieldOrder)
    ensures forall i :: 1 <= i < |r| - 1 ==> Reading(d, r[i].desc) == Some(r[i].value)
    ensures forall m :: m in r ==>
      && m.labels == labels && m.desc.IsSensor()
      && (m.desc == Updated || m.desc == LastMeasureUtc || Reading(d, m.desc) == Some(m.value))
  {
    UnixRoundTrip(lm);
    var fields := FieldMetrics(d, FieldOrder, labels);
    var r := [Metric(Updated, Unix(FromUnix(lm)) as real, labels)] + fields
             + [Metric(LastMeasureUtc, lm as real, labels)];
    assert r[1..|r| - 1] == fields;
    r
  }

  /** `collectData`: the metrics of one leaf of the device tree, labelled with its
      module label and the station name it was given. */
  function LeafMetrics(d: Device, station: string, now: Time, threshold: Duration): (r: seq<Metric>)
    ensures r == [] <==> d.dashboardData.lastMeasure.None?
                         || IsStale(now, d.dashboardData.lastMeasure.value, threshold)
    ensures forall m :: m in r ==>
      && m.labels == ModuleStation(ModuleLabel(d), station) && m.desc.IsSensor()
      && (m.desc == Updated || m.desc == LastMeasureUtc || Reading(d, m.desc) == Some(m.value))
    ensures r != [] ==> r == FreshLeafMetrics(d, d.dashboardData.lastMeasure.value, ModuleStation(ModuleLabel(d), station))
  {
    match d.dashboardData.lastMeasure
    case None => []
    case Some(lm) =>
      if IsStale(now, lm, threshold) then []
      else FreshLeafMetrics(d, lm, ModuleStation(ModuleLabel(d), station))
  }

  /** Each descriptor appears at most once. */
  predicate Distinct(ks: seq<Desc>) {
    forall i, j :: 0 <= i < j < |ks| ==> ks[i] != ks[j]
  }

  /** The position of an optional field in `FieldOrder`. */
  function FieldRank(k: Desc): nat {
    match k
    case Temperature => 0
    case Humidity => 1
    case CO2 => 2
    case Noise => 3
    case Pressure => 4
    case WindStrength => 5
    case WindDirection => 6
    case Rain => 7
    case Battery => 8
    case Wifi => 9
    case RF => 10
    case HealthIndex => 11
    case AbsolutePressure => 12
    case _ => 13
  }

  lemma FieldOrderDistinct()
    ensures Distinct(FieldOrder)
  {
    forall i | 0 <= i < |FieldOrder| ensures FieldRank(FieldOrder[i]) == i {
    }
  }

  /** Over distinct descriptors, the present keys count the present fields. */
  lemma {:induction false} PresentKeysCount(d: Device, ks: seq<Desc>)
    requires Distinct(ks)
    ensures |PresentKeys(d, ks)| == |set k | k in ks && Reading(d, k).Some?|
  {
    if ks != [] {
      PresentKeysCount(d, ks[1..]);
      var rest := set k | k in ks[1..] && Reading(d, k).Some?;
      var all := set k | k in ks && Reading(d, k).Some?;
      assert ks[0] !in rest by {
        forall i | 0 <= i < |ks[1..]| ensures ks[1..][i] != ks[0] {
          assert ks[1..][i] == ks[i + 1];
        }
      }
      if Reading(d, ks[0]).Some? {
        assert all == {ks[0]} + rest;
      } else {
        assert all == rest;
      }
    }
  }

  // ---------------------------------------------------------------------------
  // Walking the cached device tree and the whole scrape (`Collect`)
  // ---------------------------------------------------------------------------

  /** The `module` label names a device's own module and the `station` label its owner. */
  predicate LabelledBy(m: Metric, d: Device, station: string) {
    m.labels == ModuleStation(ModuleLabel(d), station)
  }

  /** Walking a list element by element: when `tail` holds every metric of the
      elements after the first, `head + tail` holds every metric of all of them. */
  lemma ConsCovers(xs: seq<Device>, f: Device -> seq<Metric>, head: seq<Metric>, tail: seq<Metric>)
    requires xs != [] && head == f(xs[0])
    requires forall i, m :: 0 <= i < |xs| - 1 && m in f(xs[1..][i]) ==> m in tail
    ensures forall i, m :: 0 <= i < |xs| && m in f(xs[i]) ==> m in head + tail
  {
    forall i, m | 0 <= i < |xs| && m in f(xs[i]) ensures m in head + tail {
      if i > 0 {
        assert xs[1..][i - 1] == xs[i];
      }
    }
  }

  /** The metrics of the modules linked to one station, module by module. */
  function ModulesMetrics(mods: seq<Device>, station: string, now: Time, threshold: Duration): (r: seq<Metric>)
    ensures forall m :: m in r ==> m.desc.IsSensor() && exists mod :: mod in mods && LabelledBy(m, mod, station)
    ensures forall j, m :: 0 <= j < |mods| && m in LeafMetrics(mods[j], station, now, threshold) ==> m in r
  {
    if mods == [] then []
    else
      var head := LeafMetrics(mods[0], station, now, threshold);
      var tail := ModulesMetrics(mods[1..], station, now, threshold);
      ConsCovers(mods, d => LeafMetrics(d, station, now, threshold), head, tail);
      assert forall m :: m in head + tail ==> exists mod :: mod in mods && LabelledBy(m, mod, station) by {
        forall m | m in head + tail ensures exists mod :: mod in mods && LabelledBy(m, mod, station) {
          if m in head {
            assert mods[0] in mods && LabelledBy(m, mods[0], station);
          } else {
            var mod :| mod in mods[1..] && LabelledBy(m, mod, station);
            assert mod in mods;
          }
        }
      }
      head + tail
  }

  /** `m` belongs to main device `dev`: it is labelled with the station name of
      `dev` and the module label of `dev` or of one of its linked modules. */
  predicate OwnedBy(m: Metric, dev: Device) {
    || LabelledBy(m, dev, dev.stationName)
    || exists mod :: mod in dev.linkedModules && LabelledBy(m, mod, dev.stationName)
  }

  /** Every metric of `ms` belongs to one of the main devices `devs`. */
  predicate AllOwned(ms: seq<Metric>, devs: seq<Device>) {
    forall m :: m in ms ==> exists dev :: dev in devs && OwnedBy(m, dev)
  }

  /** The metrics of one main device: the device itself, then its linked modules,
      all labelled with the device's station name. */
  function DeviceMetrics(dev: Device, now: Time, threshold: Duration): (r: seq<Metric>)
    ensures forall m :: m in r ==> m.desc.IsSensor() && OwnedBy(m, dev)
    ensures forall m :: m in LeafMetrics(dev, dev.stationName, now, threshold) ==> m in r
    ensures forall j, m ::
      0 <= j < |dev.linkedModules| && m in LeafMetrics(dev.linkedModules[j], dev.stationName, now, threshold) ==> m in r
  {
    LeafMetrics(dev, dev.stationName, now, threshold)
      + ModulesMetrics(dev.linkedModules, dev.stationName, now, threshold)
  }

  /** The metrics of a whole device collection, device by device. */
  function DevicesMetrics(devs: seq<Device>, now: Time, threshold: Duration): (r: seq<Metric>)
    ensures forall m :: m in r ==> m.desc.IsSensor() && m.labels.ModuleStation?
    ensures AllOwned(r, devs)
    ensures forall i, m :: 0 <= i < |devs| && m in DeviceMetrics(devs[i], now, threshold) ==> m in r
  {
    if devs == [] then []
    else
      var head := DeviceMetrics(devs[0], now, threshold);
      var tail := DevicesMetrics(devs[1..], now, threshold);
      ConsCovers(devs, d => DeviceMetrics(d, now, threshold), head, tail);
      assert AllOwned(head + tail, devs) by {
        forall m | m in head + tail ensures exists dev :: dev in devs && OwnedBy(m, dev) {
          if m in head {
            assert devs[0] in devs && OwnedBy(m, devs[0]);
          } else {
            var dev :| dev in devs[1..] && OwnedBy(m, dev);
            assert dev in devs;
          }
        }
      }
      head + tail
  }

  /** `Collect`: what one scrape at `now` emits from state `s`. */
  function Collect(s: State, cfg: Config, now: Time): (r: seq<Metric>)
    ensures |r| >= 5 && r[..5] == SelfHealth(s, cfg)
    ensures s.cachedData.None? ==> |r| == 5
    ensures forall i :: 5 <= i < |r| ==> r[i].desc.IsSensor()
    ensures forall m :: m in r ==> WellFormed(m)
    ensures s.cachedData.Some? ==> r[5..] == DevicesMetrics(s.cachedData.value.devices, now, cfg.staleThreshold)
    ensures s.cachedData.Some? ==> AllOwned(r[5..], s.cachedData.value.devices)
  {
    var health := SelfHealth(s, cfg);
    assert |health| == |DescSeq(health)| == 5;
    match s.cachedData
    case None => health
    case Some(dc) =>
      var sensors := DevicesMetrics(dc.devices, now, cfg.staleThreshold);
      HealthThenSensors(health, sensors);
      health + sensors
  }

  /** Appending sensor metrics to five well-formed self-health metrics keeps
      every metric well-formed and the self-health block in front. */
  lemma HealthThenSensors(health: seq<Metric>, sensors: seq<Metric>)
    requires |health| == 5 && forall m :: m in health ==> m.labels == NoLabels && !m.desc.IsSensor()
    requires forall m :: m in sensors ==> m.desc.IsSensor() && m.labels.ModuleStation?
    ensures (health + sensors)[..5] == health && (health + sensors)[5..] == sensors
    ensures forall i :: 5 <= i < |health + sensors| ==> (health + sensors)[i].desc.IsSensor()
    ensures forall m :: m in health + sensors ==> WellFormed(m)
  {
    var r := health + sensors;
    assert r[..5] == health;
    assert r[5..] == sensors;
    forall i | 5 <= i < |r| ensures r[i].desc.IsSensor() {
      assert r[i] == sensors[i - 5] && sensors[i - 5] in sensors;
    }
  }

  /** The outcome of one scrape: what it emitted and the state it leaves behind. */
  datatype Scrape = Scrape(metrics: seq<Metric>, next: State)

  /** The state a scrape at `now` leaves behind: when the trigger fires, the refresh
      runs with the read function returning `read` and taking `took`. */
  function NextState(s: State, cfg: Config, now: Time, read: ReadResult, took: Duration): (r: State)
    ensures ShouldRefresh(s, cfg, now) ==>
      r.lastRefresh == now && r.lastRefreshError == read.err && r.lastRefreshDuration == took
    ensures ShouldRefresh(s, cfg, now) && read.err.None? ==> r.cachedData == read.devices && r.cacheTimestamp == now
    ensures ShouldRefresh(s, cfg, now) && read.err.Some? ==>
      r.cachedData == s.cachedData && r.cacheTimestamp == s.cacheTimestamp
    ensures !ShouldRefresh(s, cfg, now) ==> r == s
  {
    if ShouldRefresh(s, cfg, now) then RefreshData(s, now, read, took) else s
  }

  /** One scrape at `now`: it emits from the state it finds; the refresh it
      triggers is seen from the next scrape on. */
  function ScrapeAt(s: State, cfg: Config, now: Time, read: ReadResult, took: Duration): (r: Scrape)
    ensures |r.metrics| >= 5
    ensures r.metrics[..5] == SelfHealth(s, cfg)
    ensures s.cachedData.None? ==> |r.metrics| == 5
    ensures s.cachedData.Some? ==> r.metrics[5..] == DevicesMetrics(s.cachedData.value.devices, now, cfg.staleThreshold)
    ensures ShouldRefresh(s, cfg, now) ==>
      r.next.lastRefresh == now && r.next.lastRefreshError == read.err && r.next.lastRefreshDuration == took
    ensures ShouldRefresh(s, cfg, now) && read.err.None? ==> r.next.cachedData == read.devices && r.next.cacheTimestamp == now
    ensures ShouldRefresh(s, cfg, now) && read.err.Some? ==>
      r.next.cachedData == s.cachedData && r.next.cacheTimestamp == s.cacheTimestamp
    ensures !ShouldRefresh(s, cfg, now) ==> r.next == s
  {
    Scrape(Collect(s, cfg, now), NextState(s, cfg, now, read, took))
  }
}

=== FILE: emission_properties.dfy ===
/** Properties of the metrics one leaf emits: the staleness boundary, optional
    fields and labels. */
module EmissionProperties {
  import opened Wrappers
  import opened GoTime
  import opened Netatmo
  import opened Metrics
  import opened Collector

  /** A leaf with a reading is reported exactly when the reading's age is at most
      the stale threshold; saturation makes no difference below the largest Duration. */
  lemma LeafReportedIffFresh(d: Device, station: string, now: Time, threshold: Duration)
    requires d.dashboardData.lastMeasure.Some?
    requires threshold < MaxDuration
    ensures LeafMetrics(d, station, now, threshold) != []
        <==> now - FromUnix(d.dashboardData.lastMeasure.value) <= threshold
  {
    SubMoreThan(now, FromUnix(d.dashboardData.lastMeasure.value), threshold);
  }

  /** A reading exactly as old as the threshold is still reported. */
  lemma AgeAtThresholdReported(d: Device, station: string, now: Time, threshold: Duration)
    requires d.dashboardData.lastMeasure.Some?
    requires now == FromUnix(d.dashboardData.lastMeasure.value) + threshold
    ensures LeafMetrics(d, station, now, threshold) != []
  {
  }

  /** A measurement time within `UnixToInternal` seconds of the largest `int64`
      wraps in `time.Unix` to a Time long before 0001-01-01: against any clock
      from 1970 on its age saturates, and the leaf is skipped as stale under
      every threshold below the largest Duration. */
  lemma WrappedMeasureIsStale(d: Device, station: string, now: Time, threshold: Duration)
    requires d.dashboardData.lastMeasure.Some?
    requires d.dashboardData.lastMeasure.value > MaxInt64 - UnixToInternal
    requires now >= UnixEpoch && threshold < MaxDuration
    ensures IsStale(now, d.dashboardData.lastMeasure.value, threshold)
    ensures LeafMetrics(d, station, now, threshold) == []
  {
    var lm := d.dashboardData.lastMeasure.value;
    assert AddInt64(lm, UnixToInternal) <= UnixToInternal - MaxInt64 - 2;
    assert FromUnix(lm) <= (UnixToInternal - MaxInt64 - 2) * NanosPerSecond;
  }

  /** A field the device does not hold is never reported, not even as a zero. */
  lemma AbsentFieldNeverReported(d: Device, station: string, now: Time, threshold: Duration, k: Desc)
    requires k in FieldOrder && Reading(d, k).None?
    ensures forall m :: m in LeafMetrics(d, station, now, threshold) ==> m.desc != k
  {
    var r := LeafMetrics(d, station, now, threshold);
    if r != [] {
      FreshAbsentField(d, d.dashboardData.lastMeasure.value, ModuleStation(ModuleLabel(d), station), k);
    }
  }

  /** The same for the metrics of a fresh leaf. */
  lemma FreshAbsentField(d: Device, lm: Int64, labels: Labels, k: Desc)
    requires k in FieldOrder && Reading(d, k).None?
    ensures forall m :: m in FreshLeafMetrics(d, lm, labels) ==> m.desc != k
  {
    assert k != Updated && k != LastMeasureUtc;
    NoSampleOfAbsent(d, FreshLeafMetrics(d, lm, labels), k);
  }

  /** Metrics that only ever carry a held field, or one of the two time stamps,
      carry no absent field. */
  lemma NoSampleOfAbsent(d: Device, ms: seq<Metric>, k: Desc)
    requires k != Updated && k != LastMeasureUtc && Reading(d, k).None?
    requires forall m :: m in ms ==>
      m.desc == Updated || m.desc == LastMeasureUtc || Reading(d, m.desc) == Some(m.value)
    ensures forall m :: m in ms ==> m.desc != k
  {
    forall m | m in ms ensures m.desc != k {
      assert m.desc == Updated || m.desc == LastMeasureUtc || Reading(d, m.desc) == Some(m.value);
    }
  }

  /** A field a fresh leaf holds is reported with its own value and the leaf's labels. */
  lemma PresentFieldReported(d: Device, station: string, now: Time, threshold: Duration, k: Desc, v: real)
    requires d.dashboardData.lastMeasure.Some? && !IsStale(now, d.dashboardData.lastMeasure.value, threshold)
    requires k in FieldOrder && Reading(d, k) == Some(v)
    ensures Metric(k, v, ModuleStation(ModuleLabel(d), station)) in LeafMetrics(d, station, now, threshold)
  {
    FreshPresentField(d, d.dashboardData.lastMeasure.value, ModuleStation(ModuleLabel(d), station), k, v);
  }

  /** The same for the metrics of a fresh leaf. */
  lemma FreshPresentField(d: Device, lm: Int64, labels: Labels, k: Desc, v: real)
    requires k in FieldOrder && Reading(d, k) == Some(v)
    ensures Metric(k, v, labels) in FreshLeafMetrics(d, lm, labels)
  {
    var r := FreshLeafMetrics(d, lm, labels);
    assert k in PresentKeys(d, FieldOrder);
    SampleOfPresent(d, r, labels, k, v);
  }

  /** A leaf whose middle metrics are the present fields, with their values,
      carries a sample of each of them. */
  lemma {:induction false} SampleOfPresent(d: Device, r: seq<Metric>, labels: Labels, k: Desc, v: real)
    requires |r| >= 2
    requires forall m :: m in r ==> m.labels == labels
    requires forall i :: 1 <= i < |r| - 1 ==> Reading(d, r[i].desc) == Some(r[i].value)
    requires k in DescSeq(r[1..|r| - 1]) && Reading(d, k) == Some(v)
    ensures Metric(k, v, labels) in r
  {
    var middle := r[1..|r| - 1];
    var i :| 0 <= i < |middle| && DescSeq(middle)[i] == k;
    assert middle[i] == r[i + 1];
    assert Reading(d, r[i + 1].desc) == Some(r[i + 1].value);
    assert r[i + 1] in r;
  }

  /** One sample per descriptor of `ks`, carrying the field of `d` it names. */
  function Samples(d: Device, ks: seq<Desc>, labels: Labels): seq<Metric>
    requires forall k :: k in ks ==> Reading(d, k).Some?
  {
    seq(|ks|, i requires 0 <= i < |ks| => Metric(ks[i], Reading(d, ks[i]).value, labels))
  }

  /** A reported leaf is, in full: its update time, one sample per present
      field in the fixed field order, and its measurement time. */
  lemma FreshLeafShape(d: Device, station: string, now: Time, threshold: Duration)
    requires LeafMetrics(d, station, now, threshold) != []
    ensures var lm := d.dashboardData.lastMeasure.value;
      var labels := ModuleStation(ModuleLabel(d), station);
      LeafMetrics(d, station, now, threshold)
      == [Metric(Updated, lm as real, labels)]
         + Samples(d, PresentKeys(d, FieldOrder), labels)
         + [Metric(LastMeasureUtc, lm as real, labels)]
  {
    FreshShape(d, d.dashboardData.lastMeasure.value, ModuleStation(ModuleLabel(d), station));
  }

  /** The same for the metrics of a fresh leaf. */
  lemma FreshShape(d: Device, lm: Int64, labels: Labels)
    ensures FreshLeafMetrics(d, lm, labels)
      == [Metric(Updated, lm as real, labels)]
         + Samples(d, PresentKeys(d, FieldOrder), labels)
         + [Metric(LastMeasureUtc, lm as real, labels)]
  {
    var r := FreshLeafMetrics(d, lm, labels);
    var keys := PresentKeys(d, FieldOrder);
    var middle := r[1..|r| - 1];
    var samples := Samples(d, keys, labels);
    forall i | 0 <= i < |middle| ensures middle[i] == samples[i] {
      assert middle[i] == r[i + 1] && r[i + 1] in r;
      assert DescSeq(middle)[i] == middle[i].desc;
    }
    assert middle == samples;
    assert r == [r[0]] + middle + [r[|r| - 1]];
  }

  /** Which fields are present is decided field by field: the present keys of
      a concatenation are those of its parts, in order. */
  lemma {:induction false} PresentKeysAppend(d: Device, a: seq<Desc>, b: seq<Desc>)
    ensures PresentKeys(d, a + b) == PresentKeys(d, a) + PresentKeys(d, b)
  {
    if a != [] {
      var ab := a + b;
      var head := if Reading(d, a[0]).Some? then [a[0]] else [];
      assert ab[0] == a[0] && ab[1..] == a[1..] + b;
      assert PresentKeys(d, ab) == head + PresentKeys(d, a[1..] + b);
      assert PresentKeys(d, a) == head + PresentKeys(d, a[1..]);
      PresentKeysAppend(d, a[1..], b);
    } else {
      assert a + b == b;
    }
  }

  /** Descriptors whose fields are all absent contribute no present keys. */
  lemma {:induction false} AbsentKeysVanish(d: Device, ks: seq<Desc>)
    requires forall k :: k in ks ==> Reading(d, k).None?
    ensures PresentKeys(d, ks) == []
  {
    if ks != [] {
      assert ks[0] in ks;
      assert forall k :: k in ks[1..] ==> k in ks;
      AbsentKeysVanish(d, ks[1..]);
    }
  }

  /** The set of optional fields `d` holds. */
  function PresentFields(d: Device): set<Desc> {
    set k | k in FieldOrder && Reading(d, k).Some?
  }

  /** A reported leaf emits two metrics more than the device holds optional fields. */
  lemma LeafCount(d: Device, station: string, now: Time, threshold: Duration)
    requires LeafMetrics(d, station, now, threshold) != []
    ensures |LeafMetrics(d, station, now, threshold)| == 2 + |PresentFields(d)|
  {
    FieldOrderDistinct();
    PresentKeysCount(d, FieldOrder);
  }

  /** A fresh leaf that holds none of the optional fields reports only its
      update time and its measurement time. */
  lemma BareLeafReportsTwo(d: Device, station: string, now: Time, threshold: Duration)
    requires LeafMetrics(d, station, now, threshold) != []
    requires forall k :: k in FieldOrder ==> Reading(d, k).None?
    ensures DescSeq(LeafMetrics(d, station, now, threshold)) == [Updated, LastMeasureUtc]
  {
    AbsentKeysVanish(d, FieldOrder);
    var r := LeafMetrics(d, station, now, threshold);
    assert |r| == 2;
  }
}

=== FILE: gotime.dfy ===
/** The part of Go's `time` package the collector relies on.

    Go holds a `Time` as a signed 64-bit count of seconds from 0001-01-01 00:00:00
    UTC plus a nanosecond within that second. Here both are folded into one count
    of nanoseconds, bounded so that its seconds fit in 64 bits; 0 is Go's zero
    Time. A `Duration` is Go's signed 64-bit count of nanoseconds. */
module GoTime {

  const MinInt64: int := -0x8000_0000_0000_0000
  const MaxInt64: int := 0x7FFF_FFFF_FFFF_FFFF
  const TwoToThe64: int := 0x1_0000_0000_0000_0000

  /** Go's `int64`. */
  type Int64 = x: int | MinInt64 <= x <= MaxInt64

  /** `a + b` on Go's `int64`: the sum wraps around modulo 2^64. */
  function AddInt64(a: Int64, b: Int64): (r: Int64)
    ensures MinInt64 <= a + b <= MaxInt64 ==> r == a + b
    ensures a + b > MaxInt64 ==> r == a + b - TwoToThe64
    ensures a + b < MinInt64 ==> r == a + b + TwoToThe64
  {
    if a + b > MaxInt64 then a + b - TwoToThe64
    else if a + b < MinInt64 then a + b + TwoToThe64
    else a + b
  }

  const NanosPerSecond: int := 1_000_000_000
  const MinDuration: int := MinInt64
  const MaxDuration: int := MaxInt64

  type Time = t: int | MinInt64 * NanosPerSecond <= t < (MaxInt64 + 1) * NanosPerSecond

  type Duration = d: int | MinDuration <= d <= MaxDuration

  /** Seconds from 0001-01-01 to the Unix epoch 1970-01-01, both UTC. */
  const UnixToInternal: int := 62_135_596_800

  /** The Time at the Unix epoch. */
  const UnixEpoch: Time := UnixToInternal * NanosPerSecond

  /** `t.IsZero()` */
  predicate IsZero(t: Time) {
    t == 0
  }

  /** `t.Sub(u)`: the elapsed time, saturated at the ends of Duration's range. */
  function Sub(t: Time, u: Time): Duration {
    if t - u > MaxDuration then MaxDuration
    else if t - u < MinDuration then MinDuration
    else t - u
  }

  /** `t.Unix()`: whole seconds since the Unix epoch, rounded toward the past; Go
      shifts its 64-bit seconds count with a wrapping `int64` addition. */
  function Unix(t: Time): Int64 {
    AddInt64(t / NanosPerSecond, -UnixToInternal)
  }

  /** `time.Unix(sec, 0)`: Go shifts `sec` to its own epoch with a wrapping
      `int64` addition, so a second within `UnixToInternal` of the largest
      `int64` lands far before 0001-01-01. */
  function FromUnix(sec: Int64): Time {
    AddInt64(sec, UnixToInternal) * NanosPerSecond
  }

  /** `d.Seconds()`, exactly; Go rounds the quotient to a float64. */
  function Seconds(d: Duration): real {
    d as real / NanosPerSecond as real
  }

  /** Saturation never changes the answer to "has at least `b` elapsed?"
      unless `b` is the smallest Duration. */
  lemma SubAtLeast(t: Time, u: Time, b: Duration)
    requires MinDuration < b
    ensures Sub(t, u) >= b <==> t - u >= b
  {
  }

  /** Saturation never changes the answer to "has more than `b` elapsed?"
      unless `b` is the largest Duration. */
  lemma SubMoreThan(t: Time, u: Time, b: Duration)
    requires b < MaxDuration
    ensures Sub(t, u) > b <==> t - u > b
  {
  }

  /** Any clock reading from 1970 on is more than a Duration away from the zero Time. */
  lemma SinceZeroSaturates(t: Time)
    requires t >= UnixEpoch
    ensures Sub(t, 0) == MaxDuration
  {
  }

  /** `time.Unix(sec, 0).Unix() == sec` */
  lemma UnixRoundTrip(sec: Int64)
    ensures Unix(FromUnix(sec)) == sec
  {
    var x := AddInt64(sec, UnixToInternal);
    assert FromUnix(sec) / NanosPerSecond == x;
  }
}

=== FILE: metrics.dfy ===
/** The metric descriptors the collector exports and the metric records it emits. */
module Metrics {

  const Prefix: string := "netatmo_"
  const SensorPrefix: string := Prefix + "aircare_"

  /** One descriptor per exported metric family. */
  datatype Desc =
    | Up | RefreshInterval | RefreshTimestamp | RefreshDuration | CacheTimestamp
    | Updated | Temperature | Humidity | CO2 | Noise | Pressure | WindStrength
    | WindDirection | Rain | Battery | Wifi | RF | AbsolutePressure
    | LastMeasureUtc | HealthIndex
  {
    /** The descriptor declares the variable labels `module` and `station`;
        the exporter's self-health descriptors declare none. */
    predicate IsSensor() {
      !(Up? || RefreshInterval? || RefreshTimestamp? || RefreshDuration? || CacheTimestamp?)
    }
  }

  /** The exported metric name. */
  function MetricName(k: Desc): (r: string)
    ensures Prefix <= r
    ensures k.IsSensor() <==> SensorPrefix <= r
  {
    if k.IsSensor() then SensorMetricName(k) else SelfHealthMetricName(k)
  }

  /** The names of the exporter's own health gauges. */
  function SelfHealthMetricName(k: Desc): (r: string)
    requires !k.IsSensor()
    ensures Prefix <= r && !(SensorPrefix <= r)
  {
    match k
    case Up => SelfHealthName("up")
    case RefreshInterval => SelfHealthName("refresh_interval_seconds")
    case RefreshTimestamp => SelfHealthName("last_refresh_time")
    case RefreshDuration => SelfHealthName("last_refresh_duration_seconds")
    case CacheTimestamp => SelfHealthName("cache_updated_time")
  }

  /** The names of the per-leaf sensor gauges. */
  function SensorMetricName(k: Desc): (r: string)
    requires k.IsSensor()
    ensures Prefix <= r && SensorPrefix <= r
  {
    match k
    case Updated => SensorName("updated")
    case Temperature => SensorName("temperature_celsius")
    case Humidity => SensorName("humidity_percent")
    case CO2 => SensorName("co2_ppm")
    case Noise => SensorName("noise_db")
    case Pressure => SensorName("pressure_mb")
    case WindStrength => SensorName("wind_strength_kph")
    case WindDirection => SensorName("wind_direction_degrees")
    case Rain => SensorName("rain_amount_mm")
    case Battery => SensorName("battery_percent")
    case Wifi => SensorName("wifi_signal_strength")
    case RF => SensorName("rf_signal_strength")
    case AbsolutePressure => SensorName("absolute_pressure")
    case LastMeasureUtc => SensorName("last_measure_utc")
    case HealthIndex => SensorName("health_index")
  }

  /** A name outside the sensor namespace: `suffix` does not start like "aircare_". */
  function SelfHealthName(suffix: string): (r: string)
    requires |suffix| > 0 && suffix[0] != 'a'
    ensures Prefix <= r && !(SensorPrefix <= r)
  {
    var r := Prefix + suffix;
    assert r[|Prefix|] != SensorPrefix[|Prefix|];
    r
  }

  /** A name in the sensor namespace. */
  function SensorName(suffix: string): (r: string)
    ensures Prefix <= r && SensorPrefix <= r
  {
    SensorPrefix + suffix
  }

  /** The label values of one metric: `mod` is the value of the `module` label. */
  datatype Labels = NoLabels | ModuleStation(mod: string, station: string)

  /** One gauge sample: descriptor, value, label values. */
  datatype Metric = Metric(desc: Desc, value: real, labels: Labels)

  /** The label values match the descriptor's declared labels, the check
      `prometheus.NewConstMetric` makes before it accepts a metric. */
  predicate WellFormed(m: Metric) {
    m.desc.IsSensor() <==> m.labels.ModuleStation?
  }

  /** The descriptors of a run of metrics, in order. */
  function DescSeq(ms: seq<Metric>): (r: seq<Desc>)
    ensures |r| == |ms|
    ensures forall i :: 0 <= i < |ms| ==> r[i] == ms[i].desc
  {
    seq(|ms|, i requires 0 <= i < |ms| => ms[i].desc)
  }
}

=== FILE: netatmo.dfy ===
/** The device tree delivered by the Netatmo API client, reduced to the fields the
    collector reads. Each sensor value is held as the number the collector reports
    for it; an absent field is `None`, never a zero. */
module Netatmo {
  import opened Wrappers
  import opened GoTime

  /** One reading of a device. `lastMeasure` is in Unix seconds and is absent when
      the device has never reported. */
  datatype DashboardData = DashboardData(
    temperature: Option<real>,
    humidity: Option<real>,
    co2: Option<real>,
    noise: Option<real>,
    pressure: Option<real>,
    absolutePressure: Option<real>,
    windStrength: Option<real>,
    windAngle: Option<real>,
    rain: Option<real>,
    healthIdx: Option<real>,
    lastMeasure: Option<Int64>)

  /** A main station, or a module linked to one. */
  datatype Device = Device(
    id: string,
    stationName: string,
    moduleName: string,
    batteryPercent: Option<real>,
    wifiStatus: Option<real>,
    rfStatus: Option<real>,
    linkedModules: seq<Device>,
    dashboardData: DashboardData)

  datatype DeviceCollection = DeviceCollection(devices: seq<Device>)
}

=== FILE: refresh_properties.dfy ===
/** Properties of the refresh trigger, the refresh executor and the up-flag,
    over one refresh and over a history of scrapes. */
module RefreshProperties {
  import opened Wrappers
  import opened GoTime
  import opened Netatmo
  import opened Metrics
  import opened Collector

  /** The trigger fires exactly when the refresh interval has elapsed since the
      last attempt; Go's saturating subtraction makes no difference unless the
      interval is the smallest Duration. */
  lemma TriggerIffElapsed(s: State, cfg: Config, now: Time)
    requires cfg.refreshInterval > MinDuration
    ensures ShouldRefresh(s, cfg, now) <==> now - s.lastRefresh >= cfg.refreshInterval
  {
    SubAtLeast(now, s.lastRefresh, cfg.refreshInterval);
  }

  /** Before any refresh the last attempt is the zero Time, and any clock reading
      from 1970 on is further from it than the longest Duration: the first
      scrape always triggers, whatever the configured interval. */
  lemma FirstScrapeRefreshes(s: State, cfg: Config, now: Time)
    requires IsZero(s.lastRefresh)
    requires now >= UnixEpoch
    ensures ShouldRefresh(s, cfg, now)
  {
    SinceZeroSaturates(now);
  }

  /** Successful or not, a refresh at `now` restarts the trigger's clock: the next
      refresh fires once the interval has elapsed since `now`, and not before,
      unless the interval is the smallest Duration, which fires every scrape. */
  lemma RefreshRestartsTrigger(s: State, cfg: Config, now: Time, read: ReadResult, took: Duration, later: Time)
    ensures ShouldRefresh(RefreshData(s, now, read, took), cfg, later)
        <==> cfg.refreshInterval == MinDuration || later - now >= cfg.refreshInterval
  {
    var r := RefreshData(s, now, read, took);
    assert r.lastRefresh == now;
  }

  /** After a refresh the up-flag reports that refresh alone: 1 when it
      succeeded (at a non-zero time), 0 when it failed, whatever came before. */
  lemma UpAfterRefresh(s: State, now: Time, read: ReadResult, took: Duration)
    ensures UpValue(RefreshData(s, now, read, took)) == (if read.err.None? && !IsZero(now) then 1.0 else 0.0)
  {
  }

  /** A successful refresh overwrites every field: the state it leaves does not
      depend on the state it found. */
  lemma SuccessForgetsHistory(s1: State, s2: State, now: Time, read: ReadResult, took: Duration)
    requires read.err.None?
    ensures RefreshData(s1, now, read, took) == RefreshData(s2, now, read, took)
  {
  }

  /** A failed refresh changes only the attempt time, the error and the duration. */
  lemma FailureKeepsCache(s: State, now: Time, read: ReadResult, took: Duration)
    requires read.err.Some?
    ensures RefreshData(s, now, read, took)
         == s.(lastRefresh := now, lastRefreshError := read.err, lastRefreshDuration := took)
  {
  }

  /** `convertTime` inverts `time.Unix(sec, 0)` for every second but the one that
      lands on the zero Time. */
  lemma ConvertTimeRoundTrip(sec: Int64)
    requires sec != -UnixToInternal
    ensures ConvertTime(FromUnix(sec)) == sec
  {
    UnixRoundTrip(sec);
  }

  /** Before the first refresh a scrape reports down, zero times and a zero
      duration, and nothing else. */
  lemma NeverRefreshedReportsZeros(cfg: Config, now: Time)
    ensures var r := Collect(Initial, cfg, now);
      && DescSeq(r) == [Up, RefreshInterval, RefreshTimestamp, RefreshDuration, CacheTimestamp]
      && r[0].value == 0.0 && r[2].value == 0.0 && r[3].value == 0.0 && r[4].value == 0.0
  {
  }

  /** A scrape serves the state it found: what it emits does not depend on the
      outcome of the refresh it starts. */
  lemma ScrapeServesFoundState(s: State, cfg: Config, now: Time, read1: ReadResult, took1: Duration,
                               read2: ReadResult, took2: Duration)
    ensures ScrapeAt(s, cfg, now, read1, took1).metrics == ScrapeAt(s, cfg, now, read2, took2).metrics
  {
  }

  /** The first scrape after start-up reports down and nothing but the
      self-health block; it starts a refresh, and the next scrape reports up
      exactly when that refresh succeeded. */
  lemma FirstScrapeReportsDown(cfg: Config, now: Time, read: ReadResult, took: Duration)
    requires now >= UnixEpoch
    ensures var sc := ScrapeAt(Initial, cfg, now, read, took);
      && |sc.metrics| == 5 && sc.metrics[0].value == 0.0
      && sc.next.lastRefresh == now
      && (UpValue(sc.next) == 1.0 <==> read.err.None?)
  {
    FirstScrapeRefreshes(Initial, cfg, now);
  }

  // ---------------------------------------------------------------------------
  // The cache invariant
  // ---------------------------------------------------------------------------

  /** The cache is never newer than the last attempt, and nothing is cached
      before the first attempt. */
  predicate CacheInvariant(s: State) {
    && s.cacheTimestamp <= s.lastRefresh
    && (IsZero(s.lastRefresh) ==> s.cachedData.None? && IsZero(s.cacheTimestamp))
  }

  lemma InitialSatisfiesInvariant()
    ensures CacheInvariant(Initial)
  {
  }

  /** A refresh keeps the invariant when the clock does not run backwards and
      does not read the zero Time. */
  lemma RefreshPreservesInvariant(s: State, now: Time, read: ReadResult, took: Duration)
    requires CacheInvariant(s)
    requires s.lastRefresh <= now && !IsZero(now)
    ensures CacheInvariant(RefreshData(s, now, read, took))
  {
  }

  /** One clock reading, read result and measured duration per scrape. */
  datatype Tick = Tick(now: Time, read: ReadResult, took: Duration)

  /** The clock never runs backwards from `start` and never reads the zero Time. */
  predicate ClockAdvances(start: Time, ticks: seq<Tick>) {
    && (forall i :: 0 <= i < |ticks| ==> !IsZero(ticks[i].now) && start <= ticks[i].now)
    && (forall i, j :: 0 <= i < j < |ticks| ==> ticks[i].now <= ticks[j].now)
  }

  /** The state after a run of scrapes; a read result is used only by a scrape
      whose trigger fires. */
  function Run(s: State, cfg: Config, ticks: seq<Tick>): State
    decreases |ticks|
  {
    if ticks == [] then s
    else
      var t := ticks[|ticks| - 1];
      NextState(Run(s, cfg, ticks[..|ticks| - 1]), cfg, t.now, t.read, t.took)
  }

  /** The attempt time only moves to a tick's clock reading. */
  lemma {:induction false} RunLastRefresh(s: State, cfg: Config, ticks: seq<Tick>)
    ensures Run(s, cfg, ticks).lastRefresh == s.lastRefresh
         || exists i :: 0 <= i < |ticks| && Run(s, cfg, ticks).lastRefresh == ticks[i].now
    decreases |ticks|
  {
    if ticks != [] {
      var prefix := ticks[..|ticks| - 1];
      RunLastRefresh(s, cfg, prefix);
      var r := Run(s, cfg, prefix);
      if r.lastRefresh != s.lastRefresh {
        var i :| 0 <= i < |prefix| && r.lastRefresh == prefix[i].now;
        assert prefix[i] == ticks[i];
      }
    }
  }

  /** The clock reading of the last tick, or `start` when there is none. */
  function LatestTime(start: Time, ticks: seq<Tick>): Time {
    if ticks == [] then start else ticks[|ticks| - 1].now
  }

  /** With an advancing clock, the attempt time never passes the latest clock reading. */
  lemma {:induction false} RunBoundedByClock(s: State, cfg: Config, ticks: seq<Tick>)
    requires ClockAdvances(s.lastRefresh, ticks)
    ensures Run(s, cfg, ticks).lastRefresh <= LatestTime(s.lastRefresh, ticks)
    decreases |ticks|
  {
    if ticks != [] {
      var prefix := ticks[..|ticks| - 1];
      assert ClockAdvances(s.lastRefresh, prefix);
      RunBoundedByClock(s, cfg, prefix);
      if prefix != [] {
        assert LatestTime(s.lastRefresh, prefix) == ticks[|ticks| - 2].now;
      }
    }
  }

  /** The clock never reads the zero Time; it may run backwards. */
  predicate ClockNeverZero(ticks: seq<Tick>) {
    forall i :: 0 <= i < |ticks| ==> !IsZero(ticks[i].now)
  }

  /** Over any run of scrapes, the cache invariant holds whichever way the clock
      moves: with a non-negative interval the trigger only fires at a clock
      reading no earlier than the last attempt. */
  lemma {:induction false} RunPreservesInvariant(s: State, cfg: Config, ticks: seq<Tick>)
    requires CacheInvariant(s)
    requires cfg.refreshInterval >= 0 && ClockNeverZero(ticks)
    ensures CacheInvariant(Run(s, cfg, ticks))
    decreases |ticks|
  {
    if ticks != [] {
      var prefix := ticks[..|ticks| - 1];
      var t := ticks[|ticks| - 1];
      assert ClockNeverZero(prefix) by {
        forall i | 0 <= i < |prefix| ensures !IsZero(prefix[i].now) {
          assert prefix[i] == ticks[i];
        }
      }
      RunPreservesInvariant(s, cfg, prefix);
      var r := Run(s, cfg, prefix);
      if ShouldRefresh(r, cfg, t.now) {
        RefreshPreservesInvariant(r, t.now, t.read, t.took);
      }
    }
  }

  /** Only a negative interval lets a clock that runs backwards break the
      invariant: a failed refresh then moves the attempt time before the cache time. */
  lemma NegativeIntervalBreaksInvariant()
    ensures var s := State(10, None, 0, 10, None);
            && CacheInvariant(s)
            && ShouldRefresh(s, Config(-5, 0), 7)
            && !CacheInvariant(NextState(s, Config(-5, 0), 7, ReadResult(None, Some(ReadError("timeout"))), 0))
  {
  }

  // ---------------------------------------------------------------------------
  // The cache holds the last successful read
  // ---------------------------------------------------------------------------

  /** The state after refreshing once per tick, regardless of the trigger. */
  function RefreshAll(s: State, ticks: seq<Tick>): State
    decreases |ticks|
  {
    if ticks == [] then s
    else
      var t := ticks[|ticks| - 1];
      RefreshData(RefreshAll(s, ticks[..|ticks| - 1]), t.now, t.read, t.took)
  }

  /** The index of the last tick whose read succeeded, if any. */
  function LastSuccess(ticks: seq<Tick>): (r: Option<nat>)
    ensures r.Some? ==> r.value < |ticks| && ticks[r.value].read.err.None?
    ensures r.Some? ==> forall j :: r.value < j < |ticks| ==> ticks[j].read.err.Some?
    ensures r.None? ==> forall j :: 0 <= j < |ticks| ==> ticks[j].read.err.Some?
    decreases |ticks|
  {
    if ticks == [] then None
    else if ticks[|ticks| - 1].read.err.None? then Some(|ticks| - 1)
    else
      var r := LastSuccess(ticks[..|ticks| - 1]);
      assert forall j :: 0 <= j < |ticks| - 1 ==> ticks[..|ticks| - 1][j] == ticks[j];
      r
  }

  /** After a run of refreshes the cache holds the collection and the time of
      the last successful read, or, when every read failed, what it held before;
      the last attempt and its error are always those of the last tick. */
  lemma {:induction false} CacheIsLastSuccess(s: State, ticks: seq<Tick>)
    requires ticks != []
    ensures var r := RefreshAll(s, ticks);
      && r.lastRefresh == ticks[|ticks| - 1].now
      && r.lastRefreshError == ticks[|ticks| - 1].read.err
      && match LastSuccess(ticks)
         case Some(i) => r.cachedData == ticks[i].read.devices && r.cacheTimestamp == ticks[i].now
         case None => r.cachedData == s.cachedData && r.cacheTimestamp == s.cacheTimestamp
    decreases |ticks|
  {
    var prefix := ticks[..|ticks| - 1];
    var t := ticks[|ticks| - 1];
    if t.read.err.Some? {
      assert LastSuccess(ticks) == LastSuccess(prefix);
      if prefix != [] {
        CacheIsLastSuccess(s, prefix);
        match LastSuccess(prefix)
        case Some(i) => assert prefix[i] == ticks[i];
        case None =>
      }
    }
  }
}

=== FILE: scenarios.dfy ===
/** Worked scrape sequences: a first scrape triggers a refresh, and the second
    scrape reports what that refresh cached. */
module Scenarios {
  import opened Wrappers
  import opened GoTime
  import opened Netatmo
  import opened Metrics
  import opened Collector
  import opened EmissionProperties

  const Interval: Duration := 60 * NanosPerSecond
  const Threshold: Duration := 300 * NanosPerSecond
  const Cfg: Config := Config(Interval, Threshold)

  /** The clock of both scrapes: 2023-11-14 22:13:20 UTC. */
  const ScrapeSecond: Int64 := 1_700_000_000

  /** A station named "X" holding only a temperature and a humidity, measured at Unix second `lm`. */
  function Station(lm: Int64): Device {
    Device("70:ee:50:00:00:01", "X", "X", None, None, None, [],
      DashboardData(Some(21.5), Some(55.0), None, None, None, None, None, None, None, None, Some(lm)))
  }

  /** The state after a first scrape whose refresh read `read`. */
  function AfterFirstScrape(read: ReadResult): State {
    ScrapeAt(Initial, Cfg, FromUnix(ScrapeSecond), read, NanosPerSecond).next
  }

  /** The station holds none of the fields after the humidity in the field order. */
  lemma StationLacksRest(lm: Int64)
    ensures forall k :: k in FieldOrder[2..] ==> Reading(Station(lm), k).None?
  {
    assert FieldOrder[2..] == [CO2, Noise, Pressure, WindStrength, WindDirection, Rain, Battery, Wifi, RF, HealthIndex, AbsolutePressure];
  }

  /** A device holding a temperature and a humidity and no later field of the
      field order has exactly those two present keys. */
  lemma TwoFields(d: Device)
    requires Reading(d, Temperature).Some? && Reading(d, Humidity).Some?
    requires forall k :: k in FieldOrder[2..] ==> Reading(d, k).None?
    ensures PresentKeys(d, FieldOrder) == [Temperature, Humidity]
  {
    var first := FieldOrder[..2];
    var rest := FieldOrder[2..];
    AbsentKeysVanish(d, rest);
    assert first == [Temperature, Humidity] && first[1..] == [Humidity];
    assert PresentKeys(d, first) == [Temperature, Humidity];
    PresentKeysAppend(d, first, rest);
    assert first + rest == FieldOrder;
  }

  /** A reported leaf whose only fields are a temperature and a humidity. */
  lemma TwoFieldLeaf(d: Device, now: Time, t: real, h: real)
    requires d.dashboardData.lastMeasure.Some? && !IsStale(now, d.dashboardData.lastMeasure.value, Threshold)
    requires ModuleLabel(d) == "X"
    requires Reading(d, Temperature) == Some(t) && Reading(d, Humidity) == Some(h)
    requires forall k :: k in FieldOrder[2..] ==> Reading(d, k).None?
    ensures var lm := d.dashboardData.lastMeasure.value;
      var labels := ModuleStation("X", "X");
      LeafMetrics(d, "X", now, Threshold)
      == [ Metric(Updated, lm as real, labels),
           Metric(Temperature, t, labels),
           Metric(Humidity, h, labels),
           Metric(LastMeasureUtc, lm as real, labels) ]
  {
    TwoFields(d);
    TwoFieldFresh(d, d.dashboardData.lastMeasure.value, ModuleStation("X", "X"), t, h);
  }

  /** The same for the metrics of a fresh leaf. */
  lemma TwoFieldFresh(d: Device, lm: Int64, labels: Labels, t: real, h: real)
    requires PresentKeys(d, FieldOrder) == [Temperature, Humidity]
    requires Reading(d, Temperature) == Some(t) && Reading(d, Humidity) == Some(h)
    ensures FreshLeafMetrics(d, lm, labels)
      == [ Metric(Updated, lm as real, labels),
           Metric(Temperature, t, labels),
           Metric(Humidity, h, labels),
           Metric(LastMeasureUtc, lm as real, labels) ]
  {
    FreshShape(d, lm, labels);
    TwoSamples(d, labels, t, h);
  }

  /** The samples of a temperature and a humidity. */
  lemma TwoSamples(d: Device, labels: Labels, t: real, h: real)
    requires Reading(d, Temperature) == Some(t) && Reading(d, Humidity) == Some(h)
    ensures Samples(d, [Temperature, Humidity], labels) == [Metric(Temperature, t, labels), Metric(Humidity, h, labels)]
  {
  }

  /** The fresh station's leaf metrics, spelled out. */
  lemma FreshStationLeaf(lm: Int64, now: Time)
    requires !IsStale(now, lm, Threshold)
    ensures var labels := ModuleStation("X", "X");
      LeafMetrics(Station(lm), "X", now, Threshold)
      == [ Metric(Updated, lm as real, labels),
           Metric(Temperature, 21.5, labels),
           Metric(Humidity, 55.0, labels),
           Metric(LastMeasureUtc, lm as real, labels) ]
  {
    StationLacksRest(lm);
    StationIsFresh(lm, now);
    StationReadings(lm);
    TwoFieldLeaf(Station(lm), now, 21.5, 55.0);
  }

  /** The fresh station's leaf is reported, under the station's own name. */
  lemma StationIsFresh(lm: Int64, now: Time)
    requires !IsStale(now, lm, Threshold)
    ensures LeafMetrics(Station(lm), "X", now, Threshold) != []
    ensures ModuleLabel(Station(lm)) == "X"
    ensures Station(lm).dashboardData.lastMeasure.value == lm
  {
    var d := Station(lm);
    assert d.dashboardData.lastMeasure == Some(lm);
    var r := LeafMetrics(d, "X", now, Threshold);
    assert !(d.dashboardData.lastMeasure.None? || IsStale(now, lm, Threshold));
  }

  /** The station reads 21.5 degrees and 55 percent. */
  lemma StationReadings(lm: Int64)
    ensures Reading(Station(lm), Temperature) == Some(21.5)
    ensures Reading(Station(lm), Humidity) == Some(55.0)
  {
  }

  /** With one unlinked device cached, the scrape reports the self-health block and then that device. */
  lemma OneDeviceCached(s: State, now: Time, d: Device)
    requires s.cachedData == Some(DeviceCollection([d]))
    requires d.linkedModules == []
    ensures Collect(s, Cfg, now)[5..] == LeafMetrics(d, d.stationName, now, Threshold)
  {
    assert [d][1..] == [];
    assert DevicesMetrics([d], now, Threshold) == DeviceMetrics(d, now, Threshold) + [];
  }

  /** The first scrape triggers, and a successful read fills the cache. */
  lemma FirstScrapeCaches(dc: DeviceCollection)
    ensures var s := AfterFirstScrape(ReadResult(Some(dc), None));
      UpValue(s) == 1.0 && s.cachedData == Some(dc)
  {
    assert ShouldRefresh(Initial, Cfg, FromUnix(ScrapeSecond));
  }

  /** A reading 10 seconds old under a 300-second threshold: the scrape reports
      up, then the update time, the two fields the station holds, and the
      measurement time, and nothing for the fields it lacks. */
  lemma FreshReadingReported()
    ensures var s := AfterFirstScrape(ReadResult(Some(DeviceCollection([Station(ScrapeSecond - 10)])), None));
      var labels := ModuleStation("X", "X");
      && UpValue(s) == 1.0
      && Collect(s, Cfg, FromUnix(ScrapeSecond))[5..]
         == [ Metric(Updated, (ScrapeSecond - 10) as real, labels),
              Metric(Temperature, 21.5, labels),
              Metric(Humidity, 55.0, labels),
              Metric(LastMeasureUtc, (ScrapeSecond - 10) as real, labels) ]
  {
    var d := Station(ScrapeSecond - 10);
    var now := FromUnix(ScrapeSecond);
    FirstScrapeCaches(DeviceCollection([d]));
    OneDeviceCached(AfterFirstScrape(ReadResult(Some(DeviceCollection([d])), None)), now, d);
    assert !IsStale(now, ScrapeSecond - 10, Threshold);
    FreshStationLeaf(ScrapeSecond - 10, now);
  }

  /** The same station with a reading 400 seconds old: the refresh succeeded, so
      up is 1, but the stale reading is not reported at all. */
  lemma StaleReadingSuppressed()
    ensures var s := AfterFirstScrape(ReadResult(Some(DeviceCollection([Station(ScrapeSecond - 400)])), None));
      && UpValue(s) == 1.0
      && |Collect(s, Cfg, FromUnix(ScrapeSecond))| == 5
  {
    var d := Station(ScrapeSecond - 400);
    var s := AfterFirstScrape(ReadResult(Some(DeviceCollection([d])), None));
    var now := FromUnix(ScrapeSecond);
    assert ShouldRefresh(Initial, Cfg, now);
    assert IsStale(now, ScrapeSecond - 400, Threshold);
    assert LeafMetrics(d, "X", now, Threshold) == [];
    assert [d][1..] == [];
    assert DevicesMetrics([d], now, Threshold) == DeviceMetrics(d, now, Threshold) + [];
  }

  /** The very first read fails: the next scrape reports down, a cache time of 0,
      and no sensor metrics. */
  lemma FirstReadFails()
    ensures var s := AfterFirstScrape(ReadResult(None, Some(ReadError("connection refused"))));
      var r := Collect(s, Cfg, FromUnix(ScrapeSecond));
      && |r| == 5
      && r[0] == Metric(Up, 0.0, NoLabels)
      && r[4] == Metric(CacheTimestamp, 0.0, NoLabels)
  {
    assert ShouldRefresh(Initial, Cfg, FromUnix(ScrapeSecond));
  }
}

=== FILE: walk_properties.dfy ===
/** Properties of the walk over the cached device tree: which leaves a scrape
    reports, and in which order. */
module WalkProperties {
  import opened GoTime
  import opened Netatmo
  import opened Metrics
  import opened Collector

  /** A leaf of the device tree as the walk visits it: a main device or a linked
      module, with the station name its metrics carry. */
  datatype Leaf = Leaf(device: Device, station: string)

  /** The linked modules `mods` of a station, as leaves under its name. */
  function ModuleLeaves(mods: seq<Device>, station: string): (r: seq<Leaf>)
    ensures |r| == |mods|
    ensures forall j :: 0 <= j < |mods| ==> r[j] == Leaf(mods[j], station)
    ensures forall l: Leaf :: l in r <==> l.station == station && l.device in mods
  {
    var r := seq(|mods|, j requires 0 <= j < |mods| => Leaf(mods[j], station));
    assert forall l: Leaf :: l.station == station && l.device in mods ==> l in r by {
      forall l: Leaf | l.station == station && l.device in mods ensures l in r {
        var j :| 0 <= j < |mods| && mods[j] == l.device;
        assert r[j] == l;
      }
    }
    r
  }

  /** The leaves of one main device in visiting order: the device itself, then
      each linked module, all under the device's station name. */
  function DeviceLeaves(dev: Device): (r: seq<Leaf>)
    ensures forall l :: l in r <==> l.station == dev.stationName && (l.device == dev || l.device in dev.linkedModules)
  {
    [Leaf(dev, dev.stationName)] + ModuleLeaves(dev.linkedModules, dev.stationName)
  }

  /** The leaves of a device collection, device by device. */
  function Leaves(devs: seq<Device>): (r: seq<Leaf>)
    ensures forall l :: l in r ==> exists dev :: dev in devs && l in DeviceLeaves(dev)
    ensures forall dev, l :: dev in devs && l in DeviceLeaves(dev) ==> l in r
  {
    if devs == [] then []
    else
      var rest := Leaves(devs[1..]);
      ConsMembership(devs, DeviceLeaves, DeviceLeaves(devs[0]), rest);
      DeviceLeaves(devs[0]) + rest
  }

  /** The reference definition of the walk: the metrics of each leaf in turn. */
  function LeavesMetrics(ls: seq<Leaf>, now: Time, threshold: Duration): (r: seq<Metric>)
    ensures forall m :: m in r ==> exists l :: l in ls && m in LeafMetrics(l.device, l.station, now, threshold)
    ensures forall l, m :: l in ls && m in LeafMetrics(l.device, l.station, now, threshold) ==> m in r
  {
    if ls == [] then []
    else
      var head := LeafMetrics(ls[0].device, ls[0].station, now, threshold);
      var rest := LeavesMetrics(ls[1..], now, threshold);
      ConsMembership(ls, (l: Leaf) => LeafMetrics(l.device, l.station, now, threshold), head, rest);
      head + rest
  }

  /** Concatenating element by element: when `tail` holds exactly the items of
      the elements after the first, `head + tail` holds exactly those of all. */
  lemma ConsMembership<X, Y>(xs: seq<X>, f: X -> seq<Y>, head: seq<Y>, tail: seq<Y>)
    requires xs != [] && head == f(xs[0])
    requires forall y :: y in tail ==> exists x :: x in xs[1..] && y in f(x)
    requires forall x, y :: x in xs[1..] && y in f(x) ==> y in tail
    ensures forall y :: y in head + tail ==> exists x :: x in xs && y in f(x)
    ensures forall x, y :: x in xs && y in f(x) ==> y in head + tail
  {
    forall y | y in head + tail ensures exists x :: x in xs && y in f(x) {
      if y in head {
        assert xs[0] in xs;
      } else {
        var x :| x in xs[1..] && y in f(x);
        assert x in xs;
      }
    }
    forall x, y | x in xs && y in f(x) ensures y in head + tail {
      if x != xs[0] {
        var i :| 0 <= i < |xs| && xs[i] == x;
        assert xs[1..][i - 1] == x;
      }
    }
  }

  /** Reporting two lists of leaves one after the other. */
  lemma {:induction false} LeavesMetricsAppend(a: seq<Leaf>, b: seq<Leaf>, now: Time, threshold: Duration)
    ensures LeavesMetrics(a + b, now, threshold) == LeavesMetrics(a, now, threshold) + LeavesMetrics(b, now, threshold)
  {
    if a != [] {
      assert (a + b)[0] == a[0];
      assert (a + b)[1..] == a[1..] + b;
      LeavesMetricsAppend(a[1..], b, now, threshold);
    } else {
      assert a + b == b;
    }
  }

  /** The linked modules of a station are reported as their leaves, in order. */
  lemma {:induction false} ModulesAreLeaves(mods: seq<Device>, station: string, now: Time, threshold: Duration)
    ensures ModulesMetrics(mods, station, now, threshold) == LeavesMetrics(ModuleLeaves(mods, station), now, threshold)
  {
    var ls := ModuleLeaves(mods, station);
    if mods != [] {
      assert ls[0] == Leaf(mods[0], station);
      assert ls[1..] == ModuleLeaves(mods[1..], station);
      ModulesAreLeaves(mods[1..], station, now, threshold);
    }
  }

  /** A main device is reported as its leaves: itself, then each linked module. */
  lemma DeviceIsItsLeaves(dev: Device, now: Time, threshold: Duration)
    ensures DeviceMetrics(dev, now, threshold) == LeavesMetrics(DeviceLeaves(dev), now, threshold)
  {
    var own := [Leaf(dev, dev.stationName)];
    var mods := ModuleLeaves(dev.linkedModules, dev.stationName);
    ModulesAreLeaves(dev.linkedModules, dev.stationName, now, threshold);
    LeavesMetricsAppend(own, mods, now, threshold);
    assert own[1..] == [];
    assert LeavesMetrics(own, now, threshold) == LeafMetrics(dev, dev.stationName, now, threshold) + [];
  }

  /** The device walk equals the reference definition: the metrics of every leaf
      of every cached device, in visiting order. */
  lemma {:induction false} WalkIsFlatten(devs: seq<Device>, now: Time, threshold: Duration)
    ensures DevicesMetrics(devs, now, threshold) == LeavesMetrics(Leaves(devs), now, threshold)
  {
    if devs != [] {
      WalkIsFlatten(devs[1..], now, threshold);
      DeviceIsItsLeaves(devs[0], now, threshold);
      LeavesMetricsAppend(DeviceLeaves(devs[0]), Leaves(devs[1..]), now, threshold);
    }
  }

  /** A scrape with a cached collection reports the self-health block and then
      the metrics of every leaf of the collection, in visiting order. */
  lemma CollectIsFlatten(s: State, cfg: Config, now: Time)
    requires s.cachedData.Some?
    ensures Collect(s, cfg, now)
         == SelfHealth(s, cfg) + LeavesMetrics(Leaves(s.cachedData.value.devices), now, cfg.staleThreshold)
  {
    var r := Collect(s, cfg, now);
    WalkIsFlatten(s.cachedData.value.devices, now, cfg.staleThreshold);
    assert r == r[..5] + r[5..];
  }

  /** A sensor metric is in a scrape exactly when it is a metric of one of the
      leaves of the cached collection. */
  lemma CollectReportsExactlyTheLeaves(s: State, cfg: Config, now: Time, m: Metric)
    requires s.cachedData.Some?
    ensures m in Collect(s, cfg, now)[5..]
        <==> exists l :: l in Leaves(s.cachedData.value.devices) && m in LeafMetrics(l.device, l.station, now, cfg.staleThreshold)
  {
    WalkIsFlatten(s.cachedData.value.devices, now, cfg.staleThreshold);
  }

  /** Nothing is dropped: every metric of every cached device, and of each of its
      linked modules under the device's station name, is in the scrape. */
  lemma CollectComplete(s: State, cfg: Config, now: Time, dev: Device, leaf: Device)
    requires s.cachedData.Some? && dev in s.cachedData.value.devices
    requires leaf == dev || leaf in dev.linkedModules
    ensures forall m :: m in LeafMetrics(leaf, dev.stationName, now, cfg.staleThreshold) ==> m in Collect(s, cfg, now)[5..]
  {
    var devs := s.cachedData.value.devices;
    var i :| 0 <= i < |devs| && devs[i] == dev;
    if leaf != dev {
      var j :| 0 <= j < |dev.linkedModules| && dev.linkedModules[j] == leaf;
    }
  }

  /** The walk is sequential: the metrics of a concatenation of device lists are
      the metrics of the first list followed by those of the second. */
  lemma {:induction false} WalkDistributes(a: seq<Device>, b: seq<Device>, now: Time, threshold: Duration)
    ensures DevicesMetrics(a + b, now, threshold) == DevicesMetrics(a, now, threshold) + DevicesMetrics(b, now, threshold)
  {
    if a != [] {
      assert (a + b)[0] == a[0];
      assert (a + b)[1..] == a[1..] + b;
      WalkDistributes(a[1..], b, now, threshold);
    } else {
      assert a + b == b;
    }
  }

  /** The same for the modules linked to one station. */
  lemma {:induction false} ModulesDistribute(a: seq<Device>, b: seq<Device>, station: string, now: Time, threshold: Duration)
    ensures ModulesMetrics(a + b, station, now, threshold)
         == ModulesMetrics(a, station, now, threshold) + ModulesMetrics(b, station, now, threshold)
  {
    if a != [] {
      assert (a + b)[0] == a[0];
      assert (a + b)[1..] == a[1..] + b;
      ModulesDistribute(a[1..], b, station, now, threshold);
    } else {
      assert a + b == b;
    }
  }

  /** One device's metrics, for any linked module `j`: the device's own leaf
      first, then the modules before `j`, then module `j`, then the modules
      after it, all under the device's station name. */
  lemma DeviceThenModules(dev: Device, now: Time, threshold: Duration, j: nat)
    requires j < |dev.linkedModules|
    ensures var mods := dev.linkedModules;
      var st := dev.stationName;
      DeviceMetrics(dev, now, threshold)
      == LeafMetrics(dev, st, now, threshold)
       + (ModulesMetrics(mods[..j], st, now, threshold)
       + (LeafMetrics(mods[j], st, now, threshold) + ModulesMetrics(mods[j + 1..], st, now, threshold)))
  {
    ModulesAround(dev.linkedModules, dev.stationName, now, threshold, j);
  }

  /** The modules before `j`, then module `j`, then the modules after it. */
  lemma ModulesAround(mods: seq<Device>, station: string, now: Time, threshold: Duration, j: nat)
    requires j < |mods|
    ensures ModulesMetrics(mods, station, now, threshold)
         == ModulesMetrics(mods[..j], station, now, threshold)
          + (LeafMetrics(mods[j], station, now, threshold) + ModulesMetrics(mods[j + 1..], station, now, threshold))
  {
    assert mods == mods[..j] + mods[j..];
    ModulesDistribute(mods[..j], mods[j..], station, now, threshold);
    assert mods[j..][0] == mods[j] && mods[j..][1..] == mods[j + 1..];
  }
}

=== FILE: wrappers.dfy ===
/** Option, for Go's nil pointers and nil errors. */
module Wrappers {

  /** A value that may be missing: Go's nil pointer, nil slice element or nil error. */
  datatype Option<+T> = None | Some(value: T)
}
